=== FILE: README.md ===
# Pole Chudes (New Year edition): a Dafny model of the game logic

This project models the game logic of a browser "Field of Wonders" game. Three teams take turns. A team spins an eight-sector wheel, then names a letter of a hidden word that was entered during setup. The model covers:

- **Turn engine** (`engine.dfy`, module `Engine`). The hook's game record is a class, `GameEngine`, whose methods update it in place. They cover setting and saving words, starting a round, and spinning in two steps: drawing the sector, then applying it after the delay. They also cover guessing a letter, passing the turn, resetting, and going back to setup. `Valid()` is preserved by every method. It holds three non-negative scores, a team index below 3, a duplicate-free guess list, and a pending sector drawn from the wheel.
- **Letter helpers** (`letters.dfy`, module `Letters`):
  - upper-casing over the Latin and Cyrillic alphabets;
  - folding Ё onto Е and Й onto И;
  - word normalisation;
  - the word-completion predicate;
  - the random choice of an element.
- **End-of-game statistics** (`awards.dfy`, module `Awards`):
  - leader and loser of a category, taken from a stable descending sort of a copy of the players;
  - the main and the ironic award lists;
  - the filter that keeps the awards that have a winner.
- **Turn-order randomizer** (`shuffle.dfy`, module `Shuffle`):
  - the Fisher–Yates shuffle, as an in-place loop over an array, proved against a specification function and proved to permute;
  - the component `PlayerRandomizer`, whose animation reshuffles on each of twenty ticks and then settles on the order computed at mount.
- **Setup wizard** (`setup.dfy`, module `Setup`):
  - the initial 3×3 table of rounds;
  - copy-on-write edits of a round field or a player name;
  - validation after `trim`, the start gate, and step navigation.
- **Word board** (`board.dfy`, module `Board`):
  - the classification of every character of the word into a gap, a revealed cell or a hidden cell;
  - whether a hidden cell can be clicked, and which letter a click guesses.

Every `Math.random()` value is a parameter: a real draw `r` with `0 <= r < 1`. The index it selects is `floor(r * n)`, which is proved to be below `n` (`Letters.RandomIndex`). `toUpperCase` is an explicit table. It maps Latin `a`–`z`, Cyrillic `а`–`я` and `ѐ`–`џ` to their capitals and leaves every other character unchanged.

Per-player turns, elimination, gifts and a forced whole-word guess appear in the repository only as presentation (`src/components/MustGuessWarning.tsx`, `src/components/GiftPopup.tsx`, `src/components/PlayerList.tsx`). `src/hooks/useGameState.ts` has no code for them, and the model follows that code. Score doubling does not appear in any file of the game.

## Model

| member | source | states |
|---|---|---|
| Letters.ToUpper | src/lib/gameUtils.ts:2 | the result is never a lower-case letter; exactly the lower-case letters are changed |
| Letters.ToUpperIdempotent | src/lib/gameUtils.ts:2 | upper-casing twice is upper-casing once |
| Letters.UpperWord | src/hooks/useGameState.ts:87 | `word.toUpperCase()` keeps the length and upper-cases every character in place |
| Letters.NormalizeLetter | src/lib/gameUtils.ts:1-6 | the result is upper-case and never Ё or Й; it is the upper-case form, except that Ё becomes Е and Й becomes И |
| Letters.NormalizeLetterFolds | src/lib/gameUtils.ts:1-6 | ё and Ё give Е, й and Й give И, any other character gives its upper-case form |
| Letters.NormalizeLetterIdempotent | src/lib/gameUtils.ts:1-6 | normalising a normalised letter changes nothing |
| Letters.NormalizeLetterSeparators | src/lib/gameUtils.ts:1-6 | only a space normalises to a space and only a hyphen to a hyphen |
| Letters.NormalizeWord | src/lib/gameUtils.ts:8-10 | the length is kept and character k is the normal form of input character k |
| Letters.NormalizeWordIdempotent | src/lib/gameUtils.ts:8-10 | normalising a normalised word changes nothing |
| Letters.AllCoveredIff | src/lib/gameUtils.ts:14-16 | the recursive `every` holds iff every character is a space, a hyphen or has its normal form guessed |
| Letters.CheckWordComplete | src/lib/gameUtils.ts:12-17 | `checkWordComplete`: the `every` of `AllCovered` over the normalised word; characterised by `CheckWordCompleteIff` |
| Letters.CheckWordCompleteIff | src/lib/gameUtils.ts:12-17 | a word is complete iff each of its characters is a space, a hyphen or a letter whose normal form is among the guessed letters |
| Letters.CheckWordCompleteMonotone | src/lib/gameUtils.ts:12-17 | guessing more letters never makes a complete word incomplete |
| Letters.CheckWordCompleteSetOnly | src/lib/gameUtils.ts:12-17 | completion depends only on the set of guessed letters, not on their order or repetitions |
| Letters.SeparatorsOnlyComplete | src/lib/gameUtils.ts:14-16 | a word of spaces and hyphens only, the empty word included, is complete with nothing guessed |
| Letters.RandomIndex | src/lib/gameUtils.ts:20 | `floor(r * n)` for a draw in [0, 1) is a valid index below `n` |
| Letters.GetRandomItem | src/lib/gameUtils.ts:19-21 | on a non-empty array the chosen item is an element of the array |
| Engine.SectorValues | src/hooks/useGameState.ts:21-30 | the wheel has eight sectors, no value is negative, and a sector carries a positive value iff it is a points sector |
| Engine.WheelLayout | src/hooks/useGameState.ts:21-30 | `WHEEL_SECTORS`: eight sectors, points sectors worth 100, 200, 300, 500 and 1000, then skip, bankrupt and prize |
| Engine.NextTeam | src/hooks/useGameState.ts:195 | the next team is `(t + 1) % 3`, a valid team different from `t` |
| Engine.Occurrences | src/hooks/useGameState.ts:162 | the count is at most the word length and positive iff the letter occurs |
| Engine.OccurrencesCount | src/hooks/useGameState.ts:162 | `split(letter).length - 1` equals the multiplicity of the letter in the word |
| Engine.AllGuessedIff | src/hooks/useGameState.ts:169-171 | the victory test holds iff every character is a space, a hyphen or literally among the guessed letters |
| Engine.AllGuessed | src/hooks/useGameState.ts:169-171 | the victory test of `guessLetter`; characterised by `AllGuessedIff` |
| Engine.AllGuessedIsCheckWordComplete | src/hooks/useGameState.ts:169-171 | on a word already in normal form, the engine's victory test agrees with `checkWordComplete` |
| Engine.AppendFresh | src/hooks/useGameState.ts:157 | appending a letter not yet present keeps the guess list duplicate-free |
| Engine.GameEngine.constructor | src/hooks/useGameState.ts:72-82 | the initial record: empty words, nothing saved, no round, no guesses, zero scores, team 0, setup phase |
| Engine.GameEngine.SetWord | src/hooks/useGameState.ts:84-90 | only word slot `index` changes, to the upper-cased word |
| Engine.GameEngine.SaveWord | src/hooks/useGameState.ts:92-98 | only the saved flag of slot `index` changes, to true |
| Engine.GameEngine.StartRound | src/hooks/useGameState.ts:100-109 | word `i` is played and team `i` starts; the guesses and the pending sector are cleared; scores and words are kept |
| Engine.GameEngine.BeginSpin | src/hooks/useGameState.ts:111-115 | the spinning flag is raised and the drawn sector is `WHEEL_SECTORS[floor(r * 8)]`, one of the eight sectors; nothing else changes |
| Engine.GameEngine.ApplySpin | src/hooks/useGameState.ts:117-138 | bankrupt zeroes only the current team's score and passes the turn; skip passes the turn; points and prize keep turn and scores; the flag drops and the sector is stored |
| Engine.GameEngine.SpinWheel | src/hooks/useGameState.ts:111-140 | a whole spin: the sector `WHEEL_SECTORS[floor(r * 8)]` is drawn and applied with the effects above |
| Engine.GameEngine.GuessLetter | src/hooks/useGameState.ts:142-190 | a repeated letter is reported as already guessed and changes nothing. A fresh letter is appended once and the pending sector is cleared. If correct after a points sector, the current team gains value × occurrences; if correct otherwise, nothing is scored and the turn is kept; if wrong, the turn passes. Victory holds iff every character is a space, a hyphen or guessed |
| Engine.GameEngine.NextTeamTurn | src/hooks/useGameState.ts:192-198 | the turn passes to `(t + 1) % 3` and the pending sector is cleared; nothing else changes |
| Engine.GameEngine.ResetGame | src/hooks/useGameState.ts:204-216 | the record is back to its initial value |
| Engine.GameEngine.BackToSetup | src/hooks/useGameState.ts:218-226 | the round, the guesses and the pending sector are cleared and the phase is setup; words, scores and turn are kept |
| Awards.Insert | src/components/FinalStats.tsx:42 | one insertion step of the sort keeps every player, each as often |
| Awards.SortDesc | src/components/FinalStats.tsx:42 | the sorted copy is a permutation of the players |
| Awards.InsertDescending | src/components/FinalStats.tsx:42 | inserting into a descending list gives a descending list |
| Awards.SortDescDescending | src/components/FinalStats.tsx:42 | the sorted copy is in descending order of the selected value |
| Awards.FirstMaxIndexIsFirstMax | src/components/FinalStats.tsx:42-43 | the index found holds the maximal value, and every earlier player has a strictly smaller one |
| Awards.LastMinIndexIsLastMin | src/components/FinalStats.tsx:48-49 | the index found holds the minimal value, and every later player has a strictly larger one |
| Awards.SortDescHead | src/components/FinalStats.tsx:42-43 | by stability, the head of the sorted copy is the first player with the maximal value |
| Awards.InsertLast | src/components/FinalStats.tsx:48-49 | the last element after an insertion is the inserted player exactly when it is strictly smaller than the old last |
| Awards.SortDescLast | src/components/FinalStats.tsx:48-49 | by stability, the last of the sorted copy is the last player with the minimal value |
| Awards.GetLeader | src/components/FinalStats.tsx:40-44 | a leader is a player with a positive value that no player exceeds, the first such in input order; there is none iff no value is positive (so none for no players) |
| Awards.GetLoser | src/components/FinalStats.tsx:46-50 | a loser is a player with a positive value that no player undercuts, the last such in input order; there is none iff there are no players or some value is not positive |
| Awards.MakeAward | src/components/FinalStats.tsx:54-59 | the winner is the category's leader; the number shown is the leader's value, or 0 with no leader, and no player's value exceeds it; there is a winner iff some value is positive |
| Awards.BuildAwards | src/components/FinalStats.tsx:53-79 | one card per entry of the table, in order, with the entry's title, category and main flag, the leader as winner and the number shown as above |
| Awards.MainAwards | src/components/FinalStats.tsx:53-79 | the four main awards are points, letters, words and rounds, in that order, and only the first is the main award |
| Awards.FunnyAwards | src/components/FinalStats.tsx:82-107 | the four ironic awards are bankruptcies, gifts, wrong letters and failed words, in that order, none of them the main award |
| Awards.KeepWithWinner | src/components/FinalStats.tsx:110 | the filter keeps exactly the awards that have a winner |
| Awards.KeepWithWinnerAppend | src/components/FinalStats.tsx:110-111 | the filter keeps the original order: it distributes over concatenation |
| Awards.ValidAwards | src/components/FinalStats.tsx:110 | `validAwards`: the main awards that have a winner; characterised by `MainAwardShownIff` |
| Awards.ValidFunnyAwards | src/components/FinalStats.tsx:111 | `validFunnyAwards`: the ironic awards that have a winner; characterised by `FunnyAwardShownIff` |
| Awards.AwardShownIff | src/components/FinalStats.tsx:110-111 | an award survives the filter iff some player has a positive value in its category |
| Awards.MainAwardShownIff | src/components/FinalStats.tsx:110 | a main award is shown iff some player has a positive value in its category |
| Awards.FunnyAwardShownIff | src/components/FinalStats.tsx:111 | an ironic award is shown iff some player has a positive value in its category |
| Shuffle.Swap | src/components/PlayerRandomizer.tsx:29 | the destructuring swap keeps the length; its effect is stated by `SwapPermutes` |
| Shuffle.SwapPermutes | src/components/PlayerRandomizer.tsx:29 | a swap exchanges exactly two positions and keeps every player |
| Shuffle.SwapsDown | src/components/PlayerRandomizer.tsx:27-30 | the iterations from `i` down to 1, each swapping with a position `floor(r * (i + 1))` in [0, i], keep the length |
| Shuffle.SwapsDownPermutes | src/components/PlayerRandomizer.tsx:27-30 | the loop iterations permute the players |
| Shuffle.FisherYates | src/components/PlayerRandomizer.tsx:26-30 | the shuffled order has the input's length |
| Shuffle.FisherYatesPermutes | src/components/PlayerRandomizer.tsx:26-30 | the shuffled order is a permutation of the players |
| Shuffle.FisherYatesShort | src/components/PlayerRandomizer.tsx:27 | with zero or one player the order is unchanged |
| Shuffle.Shuffle | src/components/PlayerRandomizer.tsx:26-30 | the in-place loop on a fresh copy computes the shuffled order, a permutation of the players of the same length |
| Shuffle.PlayerRandomizer.constructor | src/components/PlayerRandomizer.tsx:12-31 | spinning starts with the players on display and the final order computed once from the draws |
| Shuffle.PlayerRandomizer.Tick | src/components/PlayerRandomizer.tsx:35-50 | each tick counts once and displays a fresh shuffle; on the twentieth it stops and displays the final order |
| Shuffle.PlayerRandomizer.Animate | src/components/PlayerRandomizer.tsx:34-50 | once all due ticks have run, spinning has stopped after exactly twenty ticks and the display equals the final order |
| Shuffle.PlayerRandomizer.RevealResult | src/components/PlayerRandomizer.tsx:48 | the result is revealed only after spinning stopped; nothing else changes |
| Shuffle.PlayerRandomizer.Continue | src/components/PlayerRandomizer.tsx:60-65 | the order handed on is the one computed at mount, the one displayed, and a permutation of the players |
| Setup.InitialRounds | src/components/GameSetup.tsx:20-24 | three rounds of three names each, with empty word and hint, none of them valid yet |
| Setup.WithRoundEdit | src/components/GameSetup.tsx:28-34 | only the edited field of round `r` changes; every other round and field is kept |
| Setup.WithPlayerName | src/components/GameSetup.tsx:36-44 | only name `p` of round `r` changes; the round keeps its number of names and everything else is kept |
| Setup.WithPlayerNameWellFormed | src/components/GameSetup.tsx:36-44 | a name edit keeps three rounds of three names |
| Setup.TrimStart | src/components/GameSetup.tsx:47 | dropping leading white space never lengthens the string |
| Setup.TrimStartDrops | src/components/GameSetup.tsx:47 | what `TrimStart` keeps is a suffix starting with a visible character, and everything dropped is white space |
| Setup.TrimEnd | src/components/GameSetup.tsx:47 | dropping trailing white space never lengthens the string |
| Setup.TrimEndDrops | src/components/GameSetup.tsx:47 | what `TrimEnd` keeps is a prefix ending with a visible character, and everything dropped is white space |
| Setup.Trim | src/components/GameSetup.tsx:47 | `trim()`: leading, then trailing white space dropped; characterised by `TrimNonEmptyIff` |
| Setup.TrimNonEmptyIff | src/components/GameSetup.tsx:47 | a string trims to something non-empty iff it holds a visible character |
| Setup.IsRoundValidIff | src/components/GameSetup.tsx:46-48 | a round is valid iff its word and its hint each hold a visible character |
| Setup.IsRoundValid | src/components/GameSetup.tsx:46-48 | `isRoundValid`: trimmed word and trimmed hint both non-empty; characterised by `IsRoundValidIff` |
| Setup.AllRoundsValid | src/components/GameSetup.tsx:51 | `rounds.every(isRoundValid)`; the gate of `Start` |
| Setup.SetupWizard.constructor | src/components/GameSetup.tsx:20-26 | the wizard starts on step 0 with the initial rounds |
| Setup.SetupWizard.UpdateRound | src/components/GameSetup.tsx:28-34 | the table becomes the edited copy and the step is kept |
| Setup.SetupWizard.UpdatePlayer | src/components/GameSetup.tsx:36-44 | the table becomes the copy with the one name changed, still three by three, and the step is kept |
| Setup.SetupWizard.SelectStep | src/components/GameSetup.tsx:77 | a progress button moves to its step, within 0..2 |
| Setup.SetupWizard.Back | src/components/GameSetup.tsx:148 | Back moves one step back and stays at 0 on the first step |
| Setup.SetupWizard.Next | src/components/GameSetup.tsx:155-158 | Next moves on iff the step is below 2 and the current round is valid; the step stays within 0..2 |
| Setup.SetupWizard.Start | src/components/GameSetup.tsx:53-57 | the rounds are handed on iff all three rounds are valid |
| Board.ClassifyCell | src/components/WordDisplay.tsx:12-37 | a gap iff the character is a space. Otherwise the cell is revealed iff it is `-`, `.`, `,` or `!` or its upper case was guessed, and then it shows the upper case. It is clickable iff clicking is on, a handler is given and it is hidden; a click guesses its upper case, which is not yet guessed |
| Board.BoardCells | src/components/WordDisplay.tsx:12 | one cell per character, in order |
| Board.ClickGuessIsFresh | src/components/WordDisplay.tsx:16-25 | a click never guesses a letter already guessed; on a stored (upper-case) word it guesses a letter of the word |
| Board.NoClicksWhenDisabled | src/components/WordDisplay.tsx:16 | without `clickable` or a handler no cell is clickable |
| Board.VictoryRevealsBoard | src/components/WordDisplay.tsx:13-16 | once the engine's victory test holds on a stored word, every letter cell is revealed and none is clickable |
| Board.RevealedBoardIsNotVictory | src/components/WordDisplay.tsx:14-15 | the converse fails: "УРА!" with У, Р and А guessed is fully revealed on the board, yet the engine's victory test does not hold until `!` is guessed |

## Left out

- Comment and prize texts: the cosmetic success, failure and repeat comments of `guessLetter` and `getRandomPrize` are random picks from fixed lists, so they are not modelled. `GuessReport` keeps only `success` and `alreadyGuessed`.
- Timing: the four-second spin delay, the promise, the 250 ms animation interval and the 500 ms reveal timeout. Each delayed callback is a separate method, and calls are serial.
- React plumbing: state hooks, memoised callbacks and the stale-closure read of `state` in `guessLetter` are not modelled. The model reads and writes one record.
- Engine.GameEngine.GuessLetter: with no round in play, `state.words[null]` is `undefined` and the source throws a `TypeError` at `currentWord.includes(...)` before changing anything. The model returns `None` and leaves the record unchanged. A letter is one Unicode scalar value, while the letter input (`slice(-1)` and `trim()[0]` in src/components/LetterInput.tsx:24 and :14) hands over one UTF-16 code unit; the two agree on every character of the Basic Multilingual Plane.
- Engine.AllGuessed: words and letters are sequences of Unicode scalar values (Dafny `char`), while the game splits strings into UTF-16 code units (`split('')` in src/hooks/useGameState.ts:169, src/lib/gameUtils.ts:9 and :14, and src/components/WordDisplay.tsx:12). On a word with a character outside the Basic Multilingual Plane the two differ: "ЁЛКА🎄" is five characters in the model but six code units in the game, whose board (Board.BoardCells) then shows six cells and whose round can never be won, since a lone surrogate can never be guessed. The same holds for Engine.GameEngine.GuessLetter and Letters.CheckWordComplete.
- Letters.ToUpper: full Unicode case mapping is not modelled. Only the Latin and Cyrillic alphabets are mapped, and multi-character upper cases such as `ß` do not arise.
- Setup.SetupWizard.UpdateRound: the names variant of an edit requires three names, which the source's tuple type demands. The source never calls `updateRound` with the names field.
- Shuffle: the input `players` is a sequence value, so its immutability holds by construction, not by a proof about aliasing.
- Engine: the guessing gate of the game screen (a guess only after a points sector), the wheel's rotation angle, confetti, audio and every other presentation component. The engine does not enforce that gate.
- Awards: the order of `Object.values(playerStats)` is taken as the order of the given player sequence. `src/hooks/useGameState.ts` defines neither `PlayerStats` nor the statistics' bookkeeping, so the record holds only the fields the awards read.
- Screen routing in `src/pages/Index.tsx` is not part of this model.
- Per-player elimination, gifts and the forced whole-word guess exist only as presentation in the repository, with no engine code, and are not modelled. Score doubling is not in the game at all.

=== FILE: awards.dfy ===
/** The end-of-game statistics: picking the leader and the loser of a
    category by sorting a copy of the players, building the award lists and
    keeping the awards that have a winner. */
module Awards {
  import opened Common

  /** Inserts `x`, which precedes every element of `t` in the input, in front
      of the first element whose value is not larger: the step of a stable
      sort by descending value. */
  function Insert(x: PlayerStats, t: seq<PlayerStats>, sel: PlayerStats -> int): (r: seq<PlayerStats>)
    ensures |r| == |t| + 1
    ensures multiset(r) == multiset(t) + multiset{x}
  {
    if t == [] || sel(t[0]) <= sel(x) then [x] + t
    else
      assert t == [t[0]] + t[1..];
      [t[0]] + Insert(x, t[1..], sel)
  }

  /** `[...players].sort((a, b) => selector(b) - selector(a))`: a stable
      sort of a copy, largest value first. */
  function SortDesc(ps: seq<PlayerStats>, sel: PlayerStats -> int): (r: seq<PlayerStats>)
    ensures |r| == |ps|
    ensures multiset(r) == multiset(ps)
  {
    if ps == [] then []
    else
      assert ps == [ps[0]] + ps[1..];
      Insert(ps[0], SortDesc(ps[1..], sel), sel)
  }

  predicate Descending(s: seq<PlayerStats>, sel: PlayerStats -> int) {
    forall i, j :: 0 <= i < j < |s| ==> sel(s[i]) >= sel(s[j])
  }

  lemma {:induction false} InsertDescending(x: PlayerStats, t: seq<PlayerStats>, sel: PlayerStats -> int)
    requires Descending(t, sel)
    ensures Descending(Insert(x, t, sel), sel)
  {
    if t != [] && sel(t[0]) > sel(x) {
      InsertDescending(x, t[1..], sel);
      var r := Insert(x, t[1..], sel);
      assert r[0] == x || r[0] == t[1];
    }
  }

  /** The sorted copy is in descending order of the selector. */
  lemma {:induction false} SortDescDescending(ps: seq<PlayerStats>, sel: PlayerStats -> int)
    ensures Descending(SortDesc(ps, sel), sel)
  {
    if ps != [] {
      SortDescDescending(ps[1..], sel);
      InsertDescending(ps[0], SortDesc(ps[1..], sel), sel);
    }
  }

  /** The index of the first player, in input order, with the maximal
      value. */
  function FirstMaxIndex(ps: seq<PlayerStats>, sel: PlayerStats -> int): (i: nat)
    requires ps != []
    ensures i < |ps|
  {
    if |ps| == 1 then 0
    else
      var j := FirstMaxIndex(ps[1..], sel);
      if sel(ps[1..][j]) <= sel(ps[0]) then 0 else j + 1
  }

  lemma {:induction false} FirstMaxIndexIsFirstMax(ps: seq<PlayerStats>, sel: PlayerStats -> int)
    requires ps != []
    ensures forall k :: 0 <= k < |ps| ==> sel(ps[k]) <= sel(ps[FirstMaxIndex(ps, sel)])
    ensures forall k :: 0 <= k < FirstMaxIndex(ps, sel) ==> sel(ps[k]) < sel(ps[FirstMaxIndex(ps, sel)])
  {
    if |ps| > 1 {
      FirstMaxIndexIsFirstMax(ps[1..], sel);
      assert forall k :: 0 < k < |ps| ==> ps[k] == ps[1..][k - 1];
    }
  }

  /** The index of the last player, in input order, with the minimal
      value. */
  function LastMinIndex(ps: seq<PlayerStats>, sel: PlayerStats -> int): (i: nat)
    requires ps != []
    ensures i < |ps|
  {
    if |ps| == 1 then 0
    else
      var j := LastMinIndex(ps[1..], sel);
      if sel(ps[0]) < sel(ps[1..][j]) then 0 else j + 1
  }

  lemma {:induction false} LastMinIndexIsLastMin(ps: seq<PlayerStats>, sel: PlayerStats -> int)
    requires ps != []
    ensures forall k :: 0 <= k < |ps| ==> sel(ps[k]) >= sel(ps[LastMinIndex(ps, sel)])
    ensures forall k :: LastMinIndex(ps, sel) < k < |ps| ==> sel(ps[k]) > sel(ps[LastMinIndex(ps, sel)])
  {
    if |ps| > 1 {
      LastMinIndexIsLastMin(ps[1..], sel);
      assert forall k :: 0 < k < |ps| ==> ps[k] == ps[1..][k - 1];
    }
  }

  /** Stability at the front: the head of the sorted copy is the first
      player with the maximal value. */
  lemma {:induction false} SortDescHead(ps: seq<PlayerStats>, sel: PlayerStats -> int)
    requires ps != []
    ensures SortDesc(ps, sel)[0] == ps[FirstMaxIndex(ps, sel)]
  {
    if |ps| > 1 {
      SortDescHead(ps[1..], sel);
    }
  }

  /** Where `x` ends up at the back of `Insert(x, t)`: it is last exactly
      when every element of `t` has a larger value. */
  lemma {:induction false} InsertLast(x: PlayerStats, t: seq<PlayerStats>, sel: PlayerStats -> int)
    requires t != [] && Descending(t, sel)
    ensures Insert(x, t, sel)[|t|] == if sel(x) < sel(t[|t| - 1]) then x else t[|t| - 1]
  {
    if sel(t[0]) > sel(x) && |t| > 1 {
      InsertLast(x, t[1..], sel);
    }
  }

  /** Stability at the back: the last element of the sorted copy is the
      last player with the minimal value. */
  lemma {:induction false} SortDescLast(ps: seq<PlayerStats>, sel: PlayerStats -> int)
    requires ps != []
    ensures SortDesc(ps, sel)[|ps| - 1] == ps[LastMinIndex(ps, sel)]
  {
    if |ps| > 1 {
      SortDescLast(ps[1..], sel);
      SortDescDescending(ps[1..], sel);
      InsertLast(ps[0], SortDesc(ps[1..], sel), sel);
    }
  }

  /** `getLeader(selector)`: the head of the sorted copy when its value is
      positive. */
  function GetLeader(ps: seq<PlayerStats>, sel: PlayerStats -> int): (r: Option<PlayerStats>)
    ensures r.Some? ==> r.value in ps && sel(r.value) > 0
    ensures r.Some? ==> forall p :: p in ps ==> sel(p) <= sel(r.value)
    ensures r.Some? ==> exists i :: 0 <= i < |ps| && ps[i] == r.value &&
                          (forall k :: 0 <= k < i ==> sel(ps[k]) < sel(r.value))
    ensures r.None? <==> forall p :: p in ps ==> sel(p) <= 0
  {
    if |ps| == 0 then None
    else
      SortDescHead(ps, sel);
      FirstMaxIndexIsFirstMax(ps, sel);
      var sorted := SortDesc(ps, sel);
      if sel(sorted[0]) > 0 then Some(sorted[0]) else None
  }

  /** `getLoser(selector)`: the tail of the sorted copy when its value is
      positive. */
  function GetLoser(ps: seq<PlayerStats>, sel: PlayerStats -> int): (r: Option<PlayerStats>)
    ensures r.Some? ==> r.value in ps && sel(r.value) > 0
    ensures r.Some? ==> forall p :: p in ps ==> sel(p) >= sel(r.value)
    ensures r.Some? ==> exists i :: 0 <= i < |ps| && ps[i] == r.value &&
                          (forall k :: i < k < |ps| ==> sel(ps[k]) > sel(r.value))
    ensures r.None? <==> (ps == [] || exists p :: p in ps && sel(p) <= 0)
  {
    if |ps| == 0 then None
    else
      SortDescLast(ps, sel);
      LastMinIndexIsLastMin(ps, sel);
      var sorted := SortDesc(ps, sel);
      if sel(sorted[|sorted| - 1]) > 0 then Some(sorted[|sorted| - 1]) else None
  }

  datatype Category =
    | TotalPoints | CorrectLetters | WordsGuessed | RoundsWon
    | Bankruptcies | GiftsReceived | WrongLetters | WordsFailed

  function StatOf(p: PlayerStats, c: Category): int {
    match c
    case TotalPoints => p.totalPoints
    case CorrectLetters => p.correctLetters
    case WordsGuessed => p.wordsGuessed
    case RoundsWon => p.roundsWon
    case Bankruptcies => p.bankruptcies
    case GiftsReceived => p.giftsReceived
    case WrongLetters => p.wrongLetters
    case WordsFailed => p.wordsFailed
  }

  /** The selector `p => p.<field>` of a category. */
  function Selector(c: Category): PlayerStats -> int {
    p => StatOf(p, c)
  }

  /** An award card; `shown` is the number its description prints before
      `unit`. */
  datatype Award = Award(
    title: string,
    emoji: string,
    category: Category,
    winner: Option<PlayerStats>,
    shown: int,
    unit: string,
    isMain: bool
  )

  /** One award: the category's leader, and `leader?.<field> || 0`. */
  function MakeAward(title: string, emoji: string, c: Category, unit: string, isMain: bool,
                     ps: seq<PlayerStats>): (a: Award)
    ensures a.title == title && a.emoji == emoji && a.unit == unit && a.isMain == isMain
    ensures a.category == c && a.winner == GetLeader(ps, Selector(c))
    ensures a.shown >= 0 && forall p :: p in ps ==> StatOf(p, c) <= a.shown
    ensures a.winner.Some? ==> a.shown == StatOf(a.winner.value, c)
    ensures a.winner.None? ==> a.shown == 0
    ensures a.winner.Some? <==> exists p :: p in ps && StatOf(p, c) > 0
  {
    var leader := GetLeader(ps, Selector(c));
    var value := if leader.Some? then StatOf(leader.value, c) else 0;
    Award(title, emoji, c, leader, if value != 0 then value else 0, unit, isMain)
  }

  /** The fixed part of an award card. */
  datatype AwardSpec = AwardSpec(title: string, emoji: string, category: Category, unit: string, isMain: bool)

  /** The four main awards, in display order. */
  const MainSpecs: seq<AwardSpec> := [
    AwardSpec("Главный Буквоед", "👑", TotalPoints, "очков", true),
    AwardSpec("Мастер Букв", "🔤", CorrectLetters, "верных букв", false),
    AwardSpec("Телепат Слов", "🔮", WordsGuessed, "угаданных слов", false),
    AwardSpec("Победитель Туров", "🏆", RoundsWon, "побед", false)
  ]

  /** The four ironic awards, in display order. */
  const FunnySpecs: seq<AwardSpec> := [
    AwardSpec("Мистер/Мисс Банкрот", "💸", Bankruptcies, "банкротств", false),
    AwardSpec("Коллекционер Подарков", "🎁", GiftsReceived, "подарков", false),
    AwardSpec("Мимо кассы", "❌", WrongLetters, "ошибок", false),
    AwardSpec("Смелый, но неверный", "🙈", WordsFailed, "провальных слов", false)
  ]

  /** The award list for a table of specs: one card per spec, in order, each
      with its category's leader as winner. */
  function BuildAwards(specs: seq<AwardSpec>, ps: seq<PlayerStats>): (r: seq<Award>)
    ensures |r| == |specs|
    ensures forall k :: 0 <= k < |specs| ==>
      && r[k].title == specs[k].title && r[k].category == specs[k].category
      && r[k].isMain == specs[k].isMain
      && r[k].winner == GetLeader(ps, Selector(specs[k].category))
      && (r[k].winner.Some? ==> r[k].shown == StatOf(r[k].winner.value, specs[k].category))
      && (r[k].winner.None? ==> r[k].shown == 0)
  {
    seq(|specs|, k requires 0 <= k < |specs| =>
      MakeAward(specs[k].title, specs[k].emoji, specs[k].category, specs[k].unit, specs[k].isMain, ps))
  }

  /** `awards`: only the first main award is the main one. */
  function MainAwards(ps: seq<PlayerStats>): (r: seq<Award>)
    ensures |r| == 4
    ensures r[0].category == TotalPoints && r[1].category == CorrectLetters
    ensures r[2].category == WordsGuessed && r[3].category == RoundsWon
    ensures r[0].isMain && !r[1].isMain && !r[2].isMain && !r[3].isMain
  {
    BuildAwards(MainSpecs, ps)
  }

  /** `funnyAwards`: none of them is the main one. */
  function FunnyAwards(ps: seq<PlayerStats>): (r: seq<Award>)
    ensures |r| == 4
    ensures r[0].category == Bankruptcies && r[1].category == GiftsReceived
    ensures r[2].category == WrongLetters && r[3].category == WordsFailed
    ensures !r[0].isMain && !r[1].isMain && !r[2].isMain && !r[3].isMain
  {
    BuildAwards(FunnySpecs, ps)
  }

  /** `awards.filter(a => a.winner !== null)`. */
  function KeepWithWinner(awards: seq<Award>): (r: seq<Award>)
    ensures |r| <= |awards|
    ensures forall a :: a in r ==> a.winner.Some? && a in awards
    ensures forall a :: a in awards && a.winner.Some? ==> a in r
  {
    if awards == [] then []
    else if awards[0].winner.Some? then [awards[0]] + KeepWithWinner(awards[1..])
    else KeepWithWinner(awards[1..])
  }

  /** The filter keeps the original order: it distributes over
      concatenation. */
  lemma {:induction false} KeepWithWinnerAppend(a: seq<Award>, b: seq<Award>)
    ensures KeepWithWinner(a + b) == KeepWithWinner(a) + KeepWithWinner(b)
  {
    if a == [] {
      assert a + b == b;
    } else {
      assert (a + b)[0] == a[0] && (a + b)[1..] == a[1..] + b;
      KeepWithWinnerAppend(a[1..], b);
      if a[0].winner.Some? {
        assert KeepWithWinner(a + b) == [a[0]] + (KeepWithWinner(a[1..]) + KeepWithWinner(b));
      }
    }
  }

  function ValidAwards(ps: seq<PlayerStats>): seq<Award> {
    KeepWithWinner(MainAwards(ps))
  }

  function ValidFunnyAwards(ps: seq<PlayerStats>): seq<Award> {
    KeepWithWinner(FunnyAwards(ps))
  }

  /** An award of a list is kept by the filter exactly when some player
      scored above zero in its category. */
  lemma AwardShownIff(specs: seq<AwardSpec>, ps: seq<PlayerStats>, k: nat)
    requires k < |specs|
    ensures BuildAwards(specs, ps)[k] in KeepWithWinner(BuildAwards(specs, ps)) <==>
      exists p :: p in ps && StatOf(p, specs[k].category) > 0
  {
    var awards := BuildAwards(specs, ps);
    var a := awards[k];
    assert a in awards;
    var c := specs[k].category;
    assert a.winner == GetLeader(ps, Selector(c));
    if a.winner.None? {
      forall p | p in ps ensures StatOf(p, c) <= 0 {
        assert Selector(c)(p) == StatOf(p, c);
      }
    } else {
      assert Selector(c)(a.winner.value) == StatOf(a.winner.value, c);
    }
  }

  /** A main award is shown exactly when some player scored above zero in
      its category. */
  lemma MainAwardShownIff(ps: seq<PlayerStats>, k: nat)
    requires k < 4
    ensures MainAwards(ps)[k] in ValidAwards(ps) <==>
      exists p :: p in ps && StatOf(p, MainSpecs[k].category) > 0
  {
    AwardShownIff(MainSpecs, ps, k);
  }

  /** An ironic award is shown exactly when some player scored above zero in
      its category. */
  lemma FunnyAwardShownIff(ps: seq<PlayerStats>, k: nat)
    requires k < 4
    ensures FunnyAwards(ps)[k] in ValidFunnyAwards(ps) <==>
      exists p :: p in ps && StatOf(p, FunnySpecs[k].category) > 0
  {
    AwardShownIff(FunnySpecs, ps, k);
  }
}

=== FILE: board.dfy ===
/** The word board: how each character of the word in play is drawn. A space
    is a gap; any other character is a cell that is either revealed (it
    shows the upper-cased character) or hidden, and a hidden cell may offer
    a click that guesses its letter. */
module Board {
  import opened Common
  import opened Letters
  import opened Engine

  datatype Cell =
    | Spacer
    | LetterCell(revealed: bool, clickGuess: Option<char>, shown: Option<char>)

  /** Punctuation drawn open from the start. */
  predicate IsSpecial(c: char) {
    c == '-' || c == '.' || c == ',' || c == '!'
  }

  /** The cell for character `letter`; `clickable` and `hasHandler` are the
      two optional properties that together switch clicking on. */
  function ClassifyCell(letter: char, guessed: seq<char>, clickable: bool, hasHandler: bool): (cell: Cell)
    ensures cell.Spacer? <==> letter == ' '
    ensures cell.LetterCell? ==> (cell.revealed <==> IsSpecial(letter) || ToUpper(letter) in guessed)
    ensures cell.LetterCell? ==> (cell.shown.Some? <==> cell.revealed)
    ensures cell.LetterCell? && cell.shown.Some? ==> cell.shown.value == ToUpper(letter)
    ensures cell.LetterCell? ==> (cell.clickGuess.Some? <==> clickable && hasHandler && !cell.revealed)
    ensures cell.LetterCell? && cell.clickGuess.Some? ==>
      cell.clickGuess.value == ToUpper(letter) && cell.clickGuess.value !in guessed
  {
    var upper := ToUpper(letter);
    var isRevealed := upper in guessed || IsSpecial(letter);
    var canClick := clickable && !isRevealed && letter != ' ' && hasHandler;
    if letter == ' ' then Spacer
    else LetterCell(isRevealed,
                    if canClick then Some(upper) else None,
                    if isRevealed then Some(upper) else None)
  }

  /** The cells of the whole word, one per character, in order. */
  function BoardCells(word: string, guessed: seq<char>, clickable: bool, hasHandler: bool): (cells: seq<Cell>)
    ensures |cells| == |word|
    ensures forall k :: 0 <= k < |word| ==> cells[k] == ClassifyCell(word[k], guessed, clickable, hasHandler)
  {
    seq(|word|, k requires 0 <= k < |word| => ClassifyCell(word[k], guessed, clickable, hasHandler))
  }

  /** Every letter cell shows its letter. */
  predicate FullyRevealed(cells: seq<Cell>) {
    forall k :: 0 <= k < |cells| ==> cells[k].Spacer? || cells[k].revealed
  }

  /** No cell offers a click. */
  predicate NothingClickable(cells: seq<Cell>) {
    forall k :: 0 <= k < |cells| ==> cells[k].Spacer? || cells[k].clickGuess.None?
  }

  /** A click on a cell guesses a letter that was not yet guessed, so it
      never takes the already-guessed path of `guessLetter`; and the letter
      is one that occurs in the word. */
  lemma ClickGuessIsFresh(word: string, guessed: seq<char>, clickable: bool, hasHandler: bool, k: nat)
    requires k < |word|
    requires BoardCells(word, guessed, clickable, hasHandler)[k].LetterCell?
    requires BoardCells(word, guessed, clickable, hasHandler)[k].clickGuess.Some?
    ensures ToUpper(BoardCells(word, guessed, clickable, hasHandler)[k].clickGuess.value) !in guessed
    ensures word == UpperWord(word) ==> BoardCells(word, guessed, clickable, hasHandler)[k].clickGuess.value in word
  {
    var c := BoardCells(word, guessed, clickable, hasHandler)[k].clickGuess.value;
    ToUpperIdempotent(word[k]);
    if word == UpperWord(word) {
      assert word[k] == ToUpper(word[k]);
    }
  }

  /** With clicking switched off (as on the game screen) no cell is clickable. */
  lemma NoClicksWhenDisabled(word: string, guessed: seq<char>, clickable: bool, hasHandler: bool)
    requires !clickable || !hasHandler
    ensures NothingClickable(BoardCells(word, guessed, clickable, hasHandler))
  {
  }

  /** Once the engine declares victory on a stored (upper-cased) word, the
      board shows every letter and offers no click. */
  lemma VictoryRevealsBoard(raw: string, guessed: seq<char>, clickable: bool, hasHandler: bool)
    requires AllGuessed(UpperWord(raw), guessed)
    ensures FullyRevealed(BoardCells(UpperWord(raw), guessed, clickable, hasHandler))
    ensures NothingClickable(BoardCells(UpperWord(raw), guessed, clickable, hasHandler))
  {
    var word := UpperWord(raw);
    var cells := BoardCells(word, guessed, clickable, hasHandler);
    AllGuessedIff(word, guessed);
    forall k | 0 <= k < |cells|
      ensures cells[k].Spacer? || cells[k].revealed
    {
      ToUpperIdempotent(raw[k]);
    }
  }

  /** The converse fails: the board reveals `.`, `,` and `!` without a
      guess, while the victory test skips only spaces and hyphens. For
      "УРА!" with У, Р and А guessed, the board shows every letter but the
      round is not won until `!` itself is guessed. */
  lemma RevealedBoardIsNotVictory()
    ensures FullyRevealed(BoardCells("УРА!", ['У', 'Р', 'А'], false, false))
    ensures !AllGuessed("УРА!", ['У', 'Р', 'А'])
  {
    var word := "УРА!";
    var guessed := ['У', 'Р', 'А'];
    assert word[3] == '!' && word[3] !in guessed;
    AllGuessedIff(word, guessed);
    var cells := BoardCells(word, guessed, false, false);
    forall k | 0 <= k < |cells|
      ensures cells[k].Spacer? || cells[k].revealed
    {
      assert k == 0 || k == 1 || k == 2 || k == 3;
    }
  }
}

=== FILE: common.dfy ===
/** Values shared by the game's components: an optional value (TypeScript's
    `T | null`) and the player records the end-of-game statistics and the
    turn-order randomizer work on. */
module Common {

  datatype Option<+T> = None | Some(value: T)

  /** A participant as the randomizer shows it: a stable id, a display name
      and an opaque photo reference. */
  datatype Player = Player(id: int, name: string, photo: string)

  /** The per-player counters read by the end-of-game awards. */
  datatype PlayerStats = PlayerStats(
    id: int,
    name: string,
    photo: string,
    totalPoints: int,
    correctLetters: int,
    wordsGuessed: int,
    roundsWon: int,
    bankruptcies: int,
    giftsReceived: int,
    wrongLetters: int,
    wordsFailed: int
  )
}

=== FILE: engine.dfy ===
/** The three-team turn engine: one shared score tuple, a fixed eight-sector
    wheel, and the actions that move a single game record forward. The
    four-second delay of a spin is two steps here: `BeginSpin` draws the
    sector and raises `isSpinning`; `ApplySpin` is the deferred callback
    that applies the drawn sector. */
module Engine {
  import opened Common
  import opened Letters

  /** The three teams, and the three words: word `i` is played by team `i`,
      so the two counts are the same. */
  const TeamCount: nat := 3
  const WordCount: nat := TeamCount

  datatype SectorKind = Points | Skip | Bankrupt | Prize

  datatype SpinResult = SpinResult(kind: SectorKind, value: int, caption: string)

  datatype Phase = Setup | Playing | Victory

  /** What `guessLetter` returns, without its cosmetic comment. */
  datatype GuessReport = GuessReport(success: bool, alreadyGuessed: bool)

  const WheelSectors: seq<SpinResult> := [
    SpinResult(Points, 100, "+100"),
    SpinResult(Points, 200, "+200"),
    SpinResult(Points, 300, "+300"),
    SpinResult(Points, 500, "+500"),
    SpinResult(Points, 1000, "+1000"),
    SpinResult(Skip, 0, "Пропуск хода"),
    SpinResult(Bankrupt, 0, "Банкрот"),
    SpinResult(Prize, 0, "🎁 Приз!")
  ]

  /** No sector carries a negative value and only points sectors carry one
      at all, so scores can never be driven below zero. */
  lemma SectorValues(s: SpinResult)
    requires s in WheelSectors
    ensures s.value >= 0
    ensures s.kind == Points <==> s.value > 0
  {
  }

  /** The wheel: eight sectors, five of them points sectors worth 100, 200,
      300, 500 and 1000, then one skip, one bankrupt and one prize sector. */
  lemma WheelLayout()
    ensures |WheelSectors| == 8
    ensures forall i :: 0 <= i < 5 ==> WheelSectors[i].kind == Points
    ensures WheelSectors[0].value == 100 && WheelSectors[1].value == 200 && WheelSectors[2].value == 300
    ensures WheelSectors[3].value == 500 && WheelSectors[4].value == 1000
    ensures WheelSectors[5].kind == Skip && WheelSectors[6].kind == Bankrupt && WheelSectors[7].kind == Prize
  {
  }

  /** The team whose turn follows team `t`. */
  function NextTeam(t: nat): (r: nat)
    requires t < TeamCount
    ensures r < TeamCount && r != t
    ensures r == (t + 1) % TeamCount
  {
    if t == TeamCount - 1 then 0 else t + 1
  }

  /** `word.split(letter).length - 1` for a one-character `letter`. */
  function Occurrences(word: string, c: char): (n: nat)
    ensures n <= |word|
    ensures n > 0 <==> c in word
  {
    if word == [] then 0
    else (if word[0] == c then 1 else 0) + Occurrences(word[1..], c)
  }

  /** The count agrees with the multiplicity of the letter in the word. */
  lemma {:induction false} OccurrencesCount(word: string, c: char)
    ensures Occurrences(word, c) == multiset(word)[c]
  {
    if word != [] {
      OccurrencesCount(word[1..], c);
      assert word == [word[0]] + word[1..];
    }
  }

  /** The victory test of `guessLetter`: every character is a space, a
      hyphen, or literally among the guessed letters. */
  predicate AllGuessed(word: string, guessed: seq<char>) {
    word == [] ||
    ((word[0] == ' ' || word[0] == '-' || word[0] in guessed) && AllGuessed(word[1..], guessed))
  }

  lemma {:induction false} AllGuessedIff(word: string, guessed: seq<char>)
    ensures AllGuessed(word, guessed) <==>
      forall k :: 0 <= k < |word| ==> word[k] == ' ' || word[k] == '-' || word[k] in guessed
  {
    if word != [] {
      AllGuessedIff(word[1..], guessed);
      assert forall k :: 1 <= k < |word| ==> word[k] == word[1..][k - 1];
    }
  }

  /** On a word that is already in normal form, the engine's literal
      victory test agrees with `checkWordComplete`. */
  lemma AllGuessedIsCheckWordComplete(word: string, guessed: seq<char>)
    requires NormalizeWord(word) == word
    ensures AllGuessed(word, guessed) == CheckWordComplete(word, guessed)
  {
    AllGuessedIff(word, guessed);
    CheckWordCompleteIff(word, guessed);
    forall k | 0 <= k < |word|
      ensures NormalizeLetter(word[k]) == word[k]
    {
      assert NormalizeWord(word)[k] == NormalizeLetter(word[k]);
    }
  }

  predicate NoDuplicates(s: seq<char>) {
    forall i, j :: 0 <= i < j < |s| ==> s[i] != s[j]
  }

  /** Appending a letter not yet present keeps a list duplicate-free. */
  lemma AppendFresh(s: seq<char>, c: char)
    requires NoDuplicates(s) && c !in s
    ensures NoDuplicates(s + [c])
  {
  }

  /** The game record of the hook, updated in place by its actions. */
  class GameEngine {
    var words: seq<string>
    var wordsSaved: seq<bool>
    var currentWordIndex: Option<nat>
    var guessedLetters: seq<char>
    var teamScores: seq<int>
    var currentTeam: nat
    var lastSpinResult: Option<SpinResult>
    var gamePhase: Phase
    var isSpinning: bool

    /** Three words and three scores, a team index mod 3, scores never
        negative, a duplicate-free guess list, and a pending result drawn
        from the wheel. */
    ghost predicate Valid()
      reads this
    {
      && |words| == WordCount
      && |wordsSaved| == WordCount
      && |teamScores| == TeamCount
      && currentTeam < TeamCount
      && (forall t :: 0 <= t < |teamScores| ==> teamScores[t] >= 0)
      && NoDuplicates(guessedLetters)
      && (currentWordIndex.Some? ==> currentWordIndex.value < WordCount)
      && (lastSpinResult.Some? ==> lastSpinResult.value in WheelSectors)
    }

    /** The record the hook starts from. */
    constructor ()
      ensures Valid()
      ensures words == ["", "", ""] && wordsSaved == [false, false, false]
      ensures currentWordIndex == None && guessedLetters == []
      ensures teamScores == [0, 0, 0] && currentTeam == 0
      ensures lastSpinResult == None && gamePhase == Setup && !isSpinning
    {
      words := ["", "", ""];
      wordsSaved := [false, false, false];
      currentWordIndex := None;
      guessedLetters := [];
      teamScores := [0, 0, 0];
      currentTeam := 0;
      lastSpinResult := None;
      gamePhase := Setup;
      isSpinning := false;
    }

    /** `setWord`: stores the upper-cased word in slot `index`. */
    method SetWord(index: nat, word: string)
      requires Valid() && index < WordCount
      modifies this
      ensures Valid()
      ensures words == old(words)[index := UpperWord(word)]
      ensures wordsSaved == old(wordsSaved) && currentWordIndex == old(currentWordIndex)
      ensures guessedLetters == old(guessedLetters) && teamScores == old(teamScores)
      ensures currentTeam == old(currentTeam) && lastSpinResult == old(lastSpinResult)
      ensures gamePhase == old(gamePhase) && isSpinning == old(isSpinning)
    {
      words := words[index := UpperWord(word)];
    }

    /** `saveWord`: marks slot `index` as saved. */
    method SaveWord(index: nat)
      requires Valid() && index < WordCount
      modifies this
      ensures Valid()
      ensures wordsSaved == old(wordsSaved)[index := true]
      ensures words == old(words) && currentWordIndex == old(currentWordIndex)
      ensures guessedLetters == old(guessedLetters) && teamScores == old(teamScores)
      ensures currentTeam == old(currentTeam) && lastSpinResult == old(lastSpinResult)
      ensures gamePhase == old(gamePhase) && isSpinning == old(isSpinning)
    {
      wordsSaved := wordsSaved[index := true];
    }

    /** `startRound(i)`: word `i` is played, team `i` begins, no letter is
        guessed yet; scores and words are kept. A word index is a team index
        because `WordCount` equals `TeamCount`. */
    method StartRound(wordIndex: nat)
      requires Valid() && wordIndex < WordCount
      modifies this
      ensures Valid()
      ensures currentWordIndex == Some(wordIndex) && currentTeam == wordIndex
      ensures guessedLetters == [] && lastSpinResult == None && gamePhase == Playing
      ensures words == old(words) && wordsSaved == old(wordsSaved)
      ensures teamScores == old(teamScores) && isSpinning == old(isSpinning)
    {
      currentWordIndex := Some(wordIndex);
      guessedLetters := [];
      currentTeam := wordIndex;
      gamePhase := Playing;
      lastSpinResult := None;
    }

    /** The synchronous half of `spinWheel`: raise `isSpinning` and draw the
        sector `WHEEL_SECTORS[floor(r * 8)]` for the random draw `r`. */
    method BeginSpin(r: real) returns (result: SpinResult)
      requires Valid() && 0.0 <= r < 1.0
      modifies this
      ensures Valid()
      ensures result in WheelSectors
      ensures result == WheelSectors[RandomIndex(r, |WheelSectors|)]
      ensures isSpinning
      ensures words == old(words) && wordsSaved == old(wordsSaved)
      ensures currentWordIndex == old(currentWordIndex) && guessedLetters == old(guessedLetters)
      ensures teamScores == old(teamScores) && currentTeam == old(currentTeam)
      ensures lastSpinResult == old(lastSpinResult) && gamePhase == old(gamePhase)
    {
      isSpinning := true;
      result := WheelSectors[RandomIndex(r, |WheelSectors|)];
    }

    /** The deferred half of `spinWheel`: bankrupt zeroes the current team's
        score and passes the turn, skip passes the turn, points and prize
        keep it; the spinning flag drops and the sector is remembered. */
    method ApplySpin(result: SpinResult)
      requires Valid() && result in WheelSectors
      modifies this
      ensures Valid()
      ensures !isSpinning && lastSpinResult == Some(result)
      ensures result.kind == Bankrupt ==>
        teamScores == old(teamScores)[old(currentTeam) := 0] && currentTeam == NextTeam(old(currentTeam))
      ensures result.kind == Skip ==>
        teamScores == old(teamScores) && currentTeam == NextTeam(old(currentTeam))
      ensures (result.kind == Points || result.kind == Prize) ==>
        teamScores == old(teamScores) && currentTeam == old(currentTeam)
      ensures words == old(words) && wordsSaved == old(wordsSaved)
      ensures currentWordIndex == old(currentWordIndex) && guessedLetters == old(guessedLetters)
      ensures gamePhase == old(gamePhase)
    {
      var newScores := teamScores;
      var newTeam := currentTeam;
      if result.kind == Bankrupt {
        newScores := newScores[currentTeam := 0];
        newTeam := NextTeam(currentTeam);
      } else if result.kind == Skip {
        newTeam := NextTeam(currentTeam);
      }
      isSpinning := false;
      lastSpinResult := Some(result);
      teamScores := newScores;
      currentTeam := newTeam;
    }

    /** A whole spin: draw, then apply once the delay has passed. */
    method SpinWheel(r: real) returns (result: SpinResult)
      requires Valid() && 0.0 <= r < 1.0
      modifies this
      ensures Valid()
      ensures result in WheelSectors && result == WheelSectors[RandomIndex(r, |WheelSectors|)]
      ensures lastSpinResult == Some(result) && !isSpinning
      ensures result.kind == Bankrupt ==>
        teamScores == old(teamScores)[old(currentTeam) := 0] && currentTeam == NextTeam(old(currentTeam))
      ensures result.kind == Skip ==>
        teamScores == old(teamScores) && currentTeam == NextTeam(old(currentTeam))
      ensures (result.kind == Points || result.kind == Prize) ==>
        teamScores == old(teamScores) && currentTeam == old(currentTeam)
      ensures words == old(words) && wordsSaved == old(wordsSaved)
      ensures currentWordIndex == old(currentWordIndex) && guessedLetters == old(guessedLetters)
      ensures gamePhase == old(gamePhase)
    {
      result := BeginSpin(r);
      ApplySpin(result);
    }

    /** `guessLetter`. A letter whose upper case was already guessed changes
        nothing. Otherwise the letter is appended; a correct letter after a
        points sector earns value times occurrences for the current team, a
        wrong letter passes the turn; the pending sector is cleared and the
        phase becomes `Victory` when every character is a space, a hyphen or
        guessed. With no word in play the TypeScript hook reads
        `words[null]`, which is `undefined`, and throws a `TypeError` at
        `currentWord.includes(...)` before changing anything: that is the
        `None` report. */
    method GuessLetter(letter: char) returns (report: Option<GuessReport>)
      requires Valid()
      modifies this
      ensures Valid()
      ensures ToUpper(letter) in old(guessedLetters) ==>
        report == Some(GuessReport(false, true)) && unchanged(this)
      ensures ToUpper(letter) !in old(guessedLetters) && old(currentWordIndex).None? ==>
        report == None && unchanged(this)
      ensures ToUpper(letter) !in old(guessedLetters) && old(currentWordIndex).Some? ==>
        var c := ToUpper(letter);
        var word := old(words)[old(currentWordIndex).value];
        var t := old(currentTeam);
        && report == Some(GuessReport(c in word, false))
        && guessedLetters == old(guessedLetters) + [c]
        && lastSpinResult == None
        && (c in word && old(lastSpinResult).Some? && old(lastSpinResult).value.kind == Points ==>
              teamScores == old(teamScores)[t := old(teamScores)[t] + old(lastSpinResult).value.value * Occurrences(word, c)]
              && currentTeam == t)
        && (c in word && !(old(lastSpinResult).Some? && old(lastSpinResult).value.kind == Points) ==>
              teamScores == old(teamScores) && currentTeam == t)
        && (c !in word ==> teamScores == old(teamScores) && currentTeam == NextTeam(t))
        && gamePhase == (if forall k :: 0 <= k < |word| ==> word[k] == ' ' || word[k] == '-' || word[k] in guessedLetters
                         then Victory else Playing)
        && words == old(words) && wordsSaved == old(wordsSaved)
        && currentWordIndex == old(currentWordIndex) && isSpinning == old(isSpinning)
    {
      var c := ToUpper(letter);
      if c in guessedLetters {
        return Some(GuessReport(false, true));
      }
      if currentWordIndex.None? {
        return None;
      }
      var word := words[currentWordIndex.value];
      var isInWord := c in word;
      var newGuessed := guessedLetters + [c];
      AppendFresh(guessedLetters, c);
      var newScores := teamScores;
      var newTeam := currentTeam;
      if isInWord && lastSpinResult.Some? && lastSpinResult.value.kind == Points {
        SectorValues(lastSpinResult.value);
        newScores := newScores[currentTeam := newScores[currentTeam] + lastSpinResult.value.value * Occurrences(word, c)];
      } else if !isInWord {
        newTeam := NextTeam(currentTeam);
      }
      AllGuessedIff(word, newGuessed);
      guessedLetters := newGuessed;
      teamScores := newScores;
      currentTeam := newTeam;
      lastSpinResult := None;
      gamePhase := if AllGuessed(word, newGuessed) then Victory else Playing;
      report := Some(GuessReport(isInWord, false));
    }

    /** `nextTeam`: pass the turn and forget the pending sector. */
    method NextTeamTurn()
      requires Valid()
      modifies this
      ensures Valid()
      ensures currentTeam == NextTeam(old(currentTeam)) && lastSpinResult == None
      ensures teamScores == old(teamScores) && guessedLetters == old(guessedLetters)
      ensures words == old(words) && wordsSaved == old(wordsSaved)
      ensures currentWordIndex == old(currentWordIndex) && gamePhase == old(gamePhase)
      ensures isSpinning == old(isSpinning)
    {
      currentTeam := NextTeam(currentTeam);
      lastSpinResult := None;
    }

    /** `resetGame`: back to the initial record. */
    method ResetGame()
      requires Valid()
      modifies this
      ensures Valid()
      ensures words == ["", "", ""] && wordsSaved == [false, false, false]
      ensures currentWordIndex == None && guessedLetters == []
      ensures teamScores == [0, 0, 0] && currentTeam == 0
      ensures lastSpinResult == None && gamePhase == Setup && !isSpinning
    {
      words := ["", "", ""];
      wordsSaved := [false, false, false];
      currentWordIndex := None;
      guessedLetters := [];
      teamScores := [0, 0, 0];
      currentTeam := 0;
      lastSpinResult := None;
      gamePhase := Setup;
      isSpinning := false;
    }

    /** `backToSetup`: leave the round but keep words, scores and turn. */
    method BackToSetup()
      requires Valid()
      modifies this
      ensures Valid()
      ensures currentWordIndex == None && guessedLetters == []
      ensures lastSpinResult == None && gamePhase == Setup
      ensures words == old(words) && wordsSaved == old(wordsSaved)
      ensures teamScores == old(teamScores) && currentTeam == old(currentTeam)
      ensures isSpinning == old(isSpinning)
    {
      currentWordIndex := None;
      guessedLetters := [];
      lastSpinResult := None;
      gamePhase := Setup;
    }
  }
}

=== FILE: letters.dfy ===
/** The letter helpers of the game: upper-casing, folding the look-alike
    letters Ё and Й onto Е and И, word normalisation, the word-completion
    predicate and the choice of a random element. */
module Letters {

  /** The characters that upper-casing changes: Latin a..z, Cyrillic а..я
      (U+0430..U+044F) and the Cyrillic block ѐ..џ (U+0450..U+045F), which
      holds ё. */
  predicate IsLower(c: char) {
    ('a' <= c <= 'z') || ('\U{0430}' <= c <= '\U{044F}') || ('\U{0450}' <= c <= '\U{045F}')
  }

  /** `toUpperCase` on one character, over the alphabet table above. */
  function ToUpper(c: char): (r: char)
    ensures !IsLower(r)
    ensures !IsLower(c) ==> r == c
    ensures IsLower(c) ==> r != c
  {
    if 'a' <= c <= 'z' then (c as int - 0x20) as char
    else if '\U{0430}' <= c <= '\U{044F}' then (c as int - 0x20) as char
    else if '\U{0450}' <= c <= '\U{045F}' then (c as int - 0x50) as char
    else c
  }

  /** Upper-casing a character that is already upper case changes nothing. */
  lemma ToUpperIdempotent(c: char)
    ensures ToUpper(ToUpper(c)) == ToUpper(c)
  {
  }

  function UpperWord(w: string): (r: string)
    ensures |r| == |w|
    ensures forall k :: 0 <= k < |w| ==> r[k] == ToUpper(w[k])
  {
    if w == [] then [] else [ToUpper(w[0])] + UpperWord(w[1..])
  }

  /** `normalizeLetter`: upper-case, then fold Ё onto Е and Й onto И. */
  function NormalizeLetter(c: char): (r: char)
    ensures !IsLower(r) && r != 'Ё' && r != 'Й'
    ensures r == ToUpper(c) || (ToUpper(c) == 'Ё' && r == 'Е') || (ToUpper(c) == 'Й' && r == 'И')
  {
    var upper := ToUpper(c);
    if upper == 'Ё' then 'Е'
    else if upper == 'Й' then 'И'
    else upper
  }

  /** The folding only touches the two look-alike letters, in both cases. */
  lemma NormalizeLetterFolds(c: char)
    ensures (c == 'ё' || c == 'Ё') ==> NormalizeLetter(c) == 'Е'
    ensures (c == 'й' || c == 'Й') ==> NormalizeLetter(c) == 'И'
    ensures ToUpper(c) != 'Ё' && ToUpper(c) != 'Й' ==> NormalizeLetter(c) == ToUpper(c)
  {
  }

  lemma NormalizeLetterIdempotent(c: char)
    ensures NormalizeLetter(NormalizeLetter(c)) == NormalizeLetter(c)
  {
  }

  /** Only a space normalises to a space and only a hyphen to a hyphen. */
  lemma NormalizeLetterSeparators(c: char)
    ensures NormalizeLetter(c) == ' ' <==> c == ' '
    ensures NormalizeLetter(c) == '-' <==> c == '-'
  {
  }

  /** `normalizeWord`: `normalizeLetter` applied to every character. */
  function NormalizeWord(w: string): (r: string)
    ensures |r| == |w|
    ensures forall k :: 0 <= k < |w| ==> r[k] == NormalizeLetter(w[k])
  {
    if w == [] then [] else [NormalizeLetter(w[0])] + NormalizeWord(w[1..])
  }

  lemma NormalizeWordIdempotent(w: string)
    ensures NormalizeWord(NormalizeWord(w)) == NormalizeWord(w)
  {
    var n := NormalizeWord(w);
    forall k | 0 <= k < |w|
      ensures NormalizeWord(n)[k] == n[k]
    {
      NormalizeLetterIdempotent(w[k]);
    }
  }

  /** A character of a normalised word that counts as shown: a space, a
      hyphen, or a letter whose normal form has been guessed. */
  predicate Covered(c: char, guessed: seq<char>) {
    c == ' ' || c == '-' || NormalizeLetter(c) in guessed
  }

  /** The `every` of `checkWordComplete`, over an already normalised word. */
  predicate AllCovered(s: string, guessed: seq<char>) {
    s == [] || (Covered(s[0], guessed) && AllCovered(s[1..], guessed))
  }

  lemma {:induction false} AllCoveredIff(s: string, guessed: seq<char>)
    ensures AllCovered(s, guessed) <==> forall k :: 0 <= k < |s| ==> Covered(s[k], guessed)
  {
    if s != [] {
      AllCoveredIff(s[1..], guessed);
      assert forall k :: 1 <= k < |s| ==> s[k] == s[1..][k - 1];
    }
  }

  /** `checkWordComplete(word, guessedLetters)`. */
  predicate CheckWordComplete(word: string, guessed: seq<char>) {
    AllCovered(NormalizeWord(word), guessed)
  }

  /** The word is complete exactly when each of its characters is a space, a
      hyphen, or a letter whose normal form has been guessed. */
  lemma CheckWordCompleteIff(word: string, guessed: seq<char>)
    ensures CheckWordComplete(word, guessed) <==>
      forall k :: 0 <= k < |word| ==>
        word[k] == ' ' || word[k] == '-' || NormalizeLetter(word[k]) in guessed
  {
    var n := NormalizeWord(word);
    AllCoveredIff(n, guessed);
    forall k | 0 <= k < |word|
      ensures Covered(n[k], guessed) <==>
        (word[k] == ' ' || word[k] == '-' || NormalizeLetter(word[k]) in guessed)
    {
      NormalizeLetterSeparators(word[k]);
      NormalizeLetterIdempotent(word[k]);
    }
  }

  /** Guessing more letters never makes a complete word incomplete. */
  lemma CheckWordCompleteMonotone(word: string, g1: seq<char>, g2: seq<char>)
    requires forall x :: x in g1 ==> x in g2
    ensures CheckWordComplete(word, g1) ==> CheckWordComplete(word, g2)
  {
    CheckWordCompleteIff(word, g1);
    CheckWordCompleteIff(word, g2);
  }

  /** Completion depends only on which letters were guessed, not on their
      order or on repetitions. */
  lemma CheckWordCompleteSetOnly(word: string, g1: seq<char>, g2: seq<char>)
    requires forall x :: x in g1 <==> x in g2
    ensures CheckWordComplete(word, g1) == CheckWordComplete(word, g2)
  {
    CheckWordCompleteMonotone(word, g1, g2);
    CheckWordCompleteMonotone(word, g2, g1);
  }

  /** A word of spaces and hyphens only, the empty word included, is
      complete before any letter is guessed. */
  lemma SeparatorsOnlyComplete(word: string)
    requires forall k :: 0 <= k < |word| ==> word[k] == ' ' || word[k] == '-'
    ensures CheckWordComplete(word, [])
  {
    CheckWordCompleteIff(word, []);
  }

  /** `Math.floor(Math.random() * n)` for a drawn `r` in [0, 1). */
  function RandomIndex(r: real, n: nat): (i: nat)
    requires 0.0 <= r < 1.0 && 0 < n
    ensures i < n
  {
    var x := r * n as real;
    assert 0.0 <= x < n as real;
    x.Floor
  }

  /** `getRandomItem(arr)` with the draw `r` of `Math.random()` supplied. */
  function GetRandomItem<T>(arr: seq<T>, r: real): (item: T)
    requires 0 < |arr| && 0.0 <= r < 1.0
    ensures item in arr
  {
    arr[RandomIndex(r, |arr|)]
  }
}

=== FILE: setup.dfy ===
/** The setup wizard: three rounds, each with a word, a hint and three player
    names, edited copy-on-write, validated after trimming, and a step cursor
    moved by the navigation buttons. */
module Setup {
  import opened Common

  datatype RoundSetup = RoundSetup(word: string, hint: string, players: seq<string>)

  /** The field edits `updateRound` is called with, each with its value. */
  datatype RoundEdit = EditWord(word: string) | EditHint(hint: string) | EditPlayers(names: seq<string>)

  const RoundCount: nat := 3

  /** A well-formed round table: three rounds of three names. */
  predicate WellFormed(rounds: seq<RoundSetup>) {
    |rounds| == RoundCount && forall r :: 0 <= r < |rounds| ==> |rounds[r].players| == 3
  }

  /** The table the wizard starts with: empty words and hints, and players
      "Игрок 1" to "Игрок 9" three to a round. */
  function InitialRounds(): (rounds: seq<RoundSetup>)
    ensures WellFormed(rounds)
    ensures forall r :: 0 <= r < |rounds| ==> rounds[r].word == "" && rounds[r].hint == ""
    ensures forall r :: 0 <= r < |rounds| ==> !IsRoundValid(rounds[r])
  {
    [ RoundSetup("", "", ["Игрок 1", "Игрок 2", "Игрок 3"]),
      RoundSetup("", "", ["Игрок 4", "Игрок 5", "Игрок 6"]),
      RoundSetup("", "", ["Игрок 7", "Игрок 8", "Игрок 9"]) ]
  }

  /** `updateRound(roundIndex, field, value)` on a copy of the table. */
  function WithRoundEdit(rounds: seq<RoundSetup>, r: nat, edit: RoundEdit): (res: seq<RoundSetup>)
    requires r < |rounds|
    ensures |res| == |rounds|
    ensures forall k :: 0 <= k < |rounds| && k != r ==> res[k] == rounds[k]
    ensures edit.EditWord? ==> res[r] == rounds[r].(word := edit.word)
    ensures edit.EditHint? ==> res[r] == rounds[r].(hint := edit.hint)
    ensures edit.EditPlayers? ==> res[r] == rounds[r].(players := edit.names)
  {
    var round := rounds[r];
    var updated := match edit
      case EditWord(w) => RoundSetup(w, round.hint, round.players)
      case EditHint(h) => RoundSetup(round.word, h, round.players)
      case EditPlayers(ns) => RoundSetup(round.word, round.hint, ns);
    rounds[r := updated]
  }

  /** `updatePlayer(roundIndex, playerIndex, name)` on a copy of the table. */
  function WithPlayerName(rounds: seq<RoundSetup>, r: nat, p: nat, name: string): (res: seq<RoundSetup>)
    requires r < |rounds| && p < |rounds[r].players|
    ensures |res| == |rounds|
    ensures forall k :: 0 <= k < |rounds| && k != r ==> res[k] == rounds[k]
    ensures res[r].word == rounds[r].word && res[r].hint == rounds[r].hint
    ensures |res[r].players| == |rounds[r].players| && res[r].players[p] == name
    ensures forall q :: 0 <= q < |rounds[r].players| && q != p ==> res[r].players[q] == rounds[r].players[q]
  {
    var newPlayers := rounds[r].players[p := name];
    rounds[r := rounds[r].(players := newPlayers)]
  }

  /** Editing one name keeps a well-formed table well-formed. */
  lemma WithPlayerNameWellFormed(rounds: seq<RoundSetup>, r: nat, p: nat, name: string)
    requires WellFormed(rounds) && r < RoundCount && p < 3
    ensures WellFormed(WithPlayerName(rounds, r, p, name))
  {
    var res := WithPlayerName(rounds, r, p, name);
    forall k | 0 <= k < |res| ensures |res[k].players| == 3 {
      if k != r { assert res[k] == rounds[k]; }
    }
  }

  /** The characters `String.prototype.trim` removes: white space and line
      terminators. */
  predicate IsWhitespace(c: char) {
    c == '\t' || c == '\n' || c == '\U{000B}' || c == '\U{000C}' || c == '\r' || c == ' '
    || c == '\U{00A0}' || c == '\U{1680}' || ('\U{2000}' <= c <= '\U{200A}')
    || c == '\U{2028}' || c == '\U{2029}' || c == '\U{202F}' || c == '\U{205F}'
    || c == '\U{3000}' || c == '\U{FEFF}'
  }

  /** Drops leading white space. */
  function TrimStart(s: string): (r: string)
    ensures |r| <= |s|
  {
    if s != [] && IsWhitespace(s[0]) then TrimStart(s[1..]) else s
  }

  /** What `TrimStart` keeps is a suffix that starts with a visible
      character, and everything it dropped was white space. */
  lemma {:induction false} TrimStartDrops(s: string)
    ensures TrimStart(s) == s[|s| - |TrimStart(s)|..]
    ensures forall k :: 0 <= k < |s| - |TrimStart(s)| ==> IsWhitespace(s[k])
    ensures TrimStart(s) != [] ==> !IsWhitespace(TrimStart(s)[0])
  {
    if s != [] && IsWhitespace(s[0]) {
      var t := s[1..];
      TrimStartDrops(t);
      var r := TrimStart(t);
      assert TrimStart(s) == r;
      assert t[|t| - |r|..] == s[|s| - |r|..];
      forall k | 0 <= k < |s| - |r|
        ensures IsWhitespace(s[k])
      {
        if k > 0 {
          assert s[k] == t[k - 1];
        }
      }
    }
  }

  /** Drops trailing white space. */
  function TrimEnd(s: string): (r: string)
    ensures |r| <= |s|
  {
    if s != [] && IsWhitespace(s[|s| - 1]) then TrimEnd(s[..|s| - 1]) else s
  }

  /** What `TrimEnd` keeps is a prefix that ends with a visible character,
      and everything it dropped was white space. */
  lemma {:induction false} TrimEndDrops(s: string)
    ensures TrimEnd(s) == s[..|TrimEnd(s)|]
    ensures forall k :: |TrimEnd(s)| <= k < |s| ==> IsWhitespace(s[k])
    ensures TrimEnd(s) != [] ==> !IsWhitespace(TrimEnd(s)[|TrimEnd(s)| - 1])
  {
    if s != [] && IsWhitespace(s[|s| - 1]) {
      var t := s[..|s| - 1];
      TrimEndDrops(t);
      var r := TrimEnd(t);
      assert TrimEnd(s) == r;
      assert t[..|r|] == s[..|r|];
      forall k | |r| <= k < |s|
        ensures IsWhitespace(s[k])
      {
        if k < |s| - 1 {
          assert s[k] == t[k];
        }
      }
    }
  }

  /** `s.trim()`. */
  function Trim(s: string): string {
    TrimEnd(TrimStart(s))
  }

  /** A string trims to something non-empty exactly when it holds a visible
      character. */
  lemma TrimNonEmptyIff(s: string)
    ensures Trim(s) != [] <==> exists k :: 0 <= k < |s| && !IsWhitespace(s[k])
  {
    var u := TrimStart(s);
    var v := TrimEnd(u);
    var d := |s| - |u|;
    TrimStartDrops(s);
    TrimEndDrops(u);
    if v != [] {
      assert u[|v| - 1] == v[|v| - 1];
      assert s[d + |v| - 1] == u[|v| - 1];
      assert !IsWhitespace(s[d + |v| - 1]);
    }
    if exists k :: 0 <= k < |s| && !IsWhitespace(s[k]) {
      var k :| 0 <= k < |s| && !IsWhitespace(s[k]);
      assert k >= d;
      assert u[k - d] == s[k];
    }
  }

  /** `isRoundValid`: the trimmed word and the trimmed hint are non-empty. */
  predicate IsRoundValid(round: RoundSetup) {
    Trim(round.word) != [] && Trim(round.hint) != []
  }

  /** A round is valid exactly when its word and its hint each hold a
      visible character. */
  lemma IsRoundValidIff(round: RoundSetup)
    ensures IsRoundValid(round) <==>
      (exists k :: 0 <= k < |round.word| && !IsWhitespace(round.word[k])) &&
      (exists k :: 0 <= k < |round.hint| && !IsWhitespace(round.hint[k]))
  {
    TrimNonEmptyIff(round.word);
    TrimNonEmptyIff(round.hint);
  }

  /** `rounds.every(isRoundValid)`. */
  predicate AllRoundsValid(rounds: seq<RoundSetup>) {
    forall r :: 0 <= r < |rounds| ==> IsRoundValid(rounds[r])
  }

  /** The setup component's state: the round table and the step shown. */
  class SetupWizard {
    var rounds: seq<RoundSetup>
    var currentStep: nat

    ghost predicate Valid()
      reads this
    {
      WellFormed(rounds) && currentStep < RoundCount
    }

    constructor ()
      ensures Valid()
      ensures rounds == InitialRounds() && currentStep == 0
    {
      rounds := InitialRounds();
      currentStep := 0;
    }

    /** An edit of the word, hint or names of round `r`. */
    method UpdateRound(r: nat, edit: RoundEdit)
      requires Valid() && r < RoundCount
      requires edit.EditPlayers? ==> |edit.names| == 3
      modifies this
      ensures Valid()
      ensures rounds == WithRoundEdit(old(rounds), r, edit)
      ensures currentStep == old(currentStep)
    {
      rounds := WithRoundEdit(rounds, r, edit);
    }

    /** An edit of name `p` of round `r`. */
    method UpdatePlayer(r: nat, p: nat, name: string)
      requires Valid() && r < RoundCount && p < 3
      modifies this
      ensures Valid()
      ensures rounds == WithPlayerName(old(rounds), r, p, name)
      ensures currentStep == old(currentStep)
    {
      WithPlayerNameWellFormed(rounds, r, p, name);
      rounds := WithPlayerName(rounds, r, p, name);
    }

    /** A click on one of the three progress buttons. */
    method SelectStep(step: nat)
      requires Valid() && step < RoundCount
      modifies this
      ensures Valid() && currentStep == step && rounds == old(rounds)
    {
      currentStep := step;
    }

    /** "Back": one step back, never below the first. */
    method Back()
      requires Valid()
      modifies this
      ensures Valid() && rounds == old(rounds)
      ensures currentStep == if old(currentStep) == 0 then 0 else old(currentStep) - 1
    {
      currentStep := if currentStep == 0 then 0 else currentStep - 1;
    }

    /** "Next": shown only before the last step and enabled only when the
        current round is valid; any other press changes nothing. */
    method Next() returns (moved: bool)
      requires Valid()
      modifies this
      ensures Valid() && rounds == old(rounds)
      ensures moved <==> old(currentStep) < RoundCount - 1 && IsRoundValid(old(rounds)[old(currentStep)])
      ensures currentStep == if moved then old(currentStep) + 1 else old(currentStep)
    {
      moved := currentStep < RoundCount - 1 && IsRoundValid(rounds[currentStep]);
      if moved {
        currentStep := currentStep + 1;
      }
    }

    /** `handleStart`: the rounds handed to `onStartGame`, if any. */
    method Start() returns (started: Option<seq<RoundSetup>>)
      requires Valid()
      ensures started.Some? <==> forall r :: 0 <= r < RoundCount ==> IsRoundValid(rounds[r])
      ensures started.Some? ==> started.value == rounds
    {
      if AllRoundsValid(rounds) {
        started := Some(rounds);
      } else {
        started := None;
      }
    }
  }
}

=== FILE: shuffle.dfy ===
/** The turn-order randomizer: a Fisher-Yates shuffle computed once when the
    component mounts, and an animation that reshuffles on every tick and
    settles on that order after the twentieth tick. Every `Math.random()`
    value is supplied as a draw `r` in [0, 1). */
module Shuffle {
  import opened Common
  import opened Letters

  const TickLimit: nat := 20

  /** One draw per position of the array being shuffled (the draw at index
      0 is never used). */
  predicate ValidDraws(rs: seq<real>, n: nat) {
    |rs| == n && forall k :: 0 <= k < |rs| ==> 0.0 <= rs[k] < 1.0
  }

  /** Exchanges positions `i` and `j`. */
  function Swap(s: seq<Player>, i: nat, j: nat): (r: seq<Player>)
    requires i < |s| && j < |s|
    ensures |r| == |s|
  {
    s[i := s[j]][j := s[i]]
  }

  /** A swap moves exactly two players and keeps everyone. */
  lemma SwapPermutes(s: seq<Player>, i: nat, j: nat)
    requires i < |s| && j < |s|
    ensures multiset(Swap(s, i, j)) == multiset(s)
    ensures Swap(s, i, j)[i] == s[j] && Swap(s, i, j)[j] == s[i]
    ensures forall k :: 0 <= k < |s| && k != i && k != j ==> Swap(s, i, j)[k] == s[k]
  {
  }

  /** The iterations `i, i-1, ..., 1` of the shuffle loop: swap position
      `i` with `j = floor(rs[i] * (i + 1))`, a position in [0, i]. */
  function SwapsDown(s: seq<Player>, rs: seq<real>, i: nat): (r: seq<Player>)
    requires i < |s| && ValidDraws(rs, |s|)
    ensures |r| == |s|
    decreases i
  {
    if i == 0 then s
    else SwapsDown(Swap(s, i, RandomIndex(rs[i], i + 1)), rs, i - 1)
  }

  lemma {:induction false} SwapsDownPermutes(s: seq<Player>, rs: seq<real>, i: nat)
    requires i < |s| && ValidDraws(rs, |s|)
    ensures multiset(SwapsDown(s, rs, i)) == multiset(s)
    decreases i
  {
    if i > 0 {
      var j := RandomIndex(rs[i], i + 1);
      SwapPermutes(s, i, j);
      SwapsDownPermutes(Swap(s, i, j), rs, i - 1);
    }
  }

  /** The order the shuffle produces for the draws `rs`. */
  function FisherYates(s: seq<Player>, rs: seq<real>): (r: seq<Player>)
    requires ValidDraws(rs, |s|)
    ensures |r| == |s|
  {
    if |s| == 0 then s else SwapsDown(s, rs, |s| - 1)
  }

  /** The shuffled order is a permutation of the input: the same players,
      each as often as before. */
  lemma FisherYatesPermutes(s: seq<Player>, rs: seq<real>)
    requires ValidDraws(rs, |s|)
    ensures multiset(FisherYates(s, rs)) == multiset(s)
  {
    if |s| > 0 {
      SwapsDownPermutes(s, rs, |s| - 1);
    }
  }

  /** With no player or one player the order does not change. */
  lemma FisherYatesShort(s: seq<Player>, rs: seq<real>)
    requires ValidDraws(rs, |s|) && |s| <= 1
    ensures FisherYates(s, rs) == s
  {
  }

  /** The shuffle loop, run on a fresh copy of `players`. */
  method Shuffle(players: seq<Player>, rs: seq<real>) returns (shuffled: seq<Player>)
    requires ValidDraws(rs, |players|)
    ensures shuffled == FisherYates(players, rs)
    ensures |shuffled| == |players| && multiset(shuffled) == multiset(players)
  {
    var a := new Player[|players|](k requires 0 <= k < |players| => players[k]);
    assert a[..] == players;
    var i: int := a.Length - 1;
    while i > 0
      invariant a.Length == |players|
      invariant -1 <= i < |players| && (i == -1 ==> |players| == 0)
      invariant i >= 0 ==> SwapsDown(a[..], rs, i) == FisherYates(players, rs)
    {
      var j := RandomIndex(rs[i], i + 1);
      ghost var before := a[..];
      a[i], a[j] := a[j], a[i];
      assert a[..] == Swap(before, i, j);
      i := i - 1;
    }
    shuffled := a[..];
    FisherYatesPermutes(players, rs);
  }

  /** The randomizer component: the players it was given, the order it
      displays, the order it settled on, and its animation state. */
  class PlayerRandomizer {
    const players: seq<Player>
    var isSpinning: bool
    var displayOrder: seq<Player>
    var finalOrder: seq<Player>
    var showResult: bool
    var count: nat

    /** Spinning lasts exactly until the twentieth tick; once it stops the
        display shows the final order; every order shown is a permutation
        of the players. */
    ghost predicate Valid()
      reads this
    {
      && count <= TickLimit
      && (isSpinning <==> count < TickLimit)
      && (!isSpinning ==> displayOrder == finalOrder)
      && (showResult ==> !isSpinning)
      && multiset(finalOrder) == multiset(players)
      && multiset(displayOrder) == multiset(players)
    }

    /** Mounting: show the players as given and compute the final order
        once, from the draws `rs`. */
    constructor (players: seq<Player>, rs: seq<real>)
      requires ValidDraws(rs, |players|)
      ensures Valid()
      ensures this.players == players && finalOrder == FisherYates(players, rs)
      ensures isSpinning && displayOrder == players && !showResult && count == 0
    {
      var shuffled := Shuffle(players, rs);
      this.players := players;
      isSpinning := true;
      displayOrder := players;
      finalOrder := shuffled;
      showResult := false;
      count := 0;
    }

    /** One interval tick: display a fresh shuffle of the players; on the
        twentieth tick stop and display the final order instead. */
    method Tick(rs: seq<real>)
      requires Valid() && isSpinning && ValidDraws(rs, |players|)
      modifies this
      ensures Valid()
      ensures count == old(count) + 1
      ensures count < TickLimit ==> isSpinning && displayOrder == FisherYates(players, rs)
      ensures count == TickLimit ==> !isSpinning && displayOrder == finalOrder
      ensures finalOrder == old(finalOrder) && showResult == old(showResult)
    {
      var temp := Shuffle(players, rs);
      displayOrder := temp;
      count := count + 1;
      if count >= TickLimit {
        displayOrder := finalOrder;
        isSpinning := false;
      }
    }

    /** The interval running until it is cleared: one tick per element of
        `ticks`, as many as are still due. */
    method Animate(ticks: seq<seq<real>>)
      requires Valid() && |ticks| >= TickLimit - count
      requires forall t :: t in ticks ==> ValidDraws(t, |players|)
      modifies this
      ensures Valid()
      ensures !isSpinning && count == TickLimit && displayOrder == finalOrder
      ensures finalOrder == old(finalOrder) && showResult == old(showResult)
    {
      var k := 0;
      while isSpinning
        invariant Valid()
        invariant 0 <= k && count == old(count) + k <= TickLimit
        invariant finalOrder == old(finalOrder) && showResult == old(showResult)
        decreases TickLimit - count
      {
        Tick(ticks[k]);
        k := k + 1;
      }
    }

    /** The half-second timeout after the spin stops: reveal the result. */
    method RevealResult()
      requires Valid() && !isSpinning
      modifies this
      ensures Valid() && showResult
      ensures isSpinning == old(isSpinning) && count == old(count)
      ensures displayOrder == old(displayOrder) && finalOrder == old(finalOrder)
    {
      showResult := true;
    }

    /** `handleContinue`: hand the order computed at mount to `onComplete`. */
    method Continue() returns (order: seq<Player>)
      requires Valid() && showResult
      ensures order == finalOrder && order == displayOrder
      ensures multiset(order) == multiset(players)
    {
      order := finalOrder;
    }
  }
}
